=== FILE: README.md ===
# Ticket spin lock (Mono `System.Threading.SpinLock`)

This project models the sequential core of Mono's `SpinLock`, a ticket lock. The lock's state is
one 64-bit word, `TicketType`, that overlays two 32-bit counters:

- `Value` is the serve counter, at byte offset 0.
- `Users` is the issue counter, at byte offset 4.

Besides the word, the lock holds the id of the owning thread, a fixed owner-tracking flag, and a
set of *stalled* tickets. A stalled ticket was drawn by a waiter that gave up. The serve counter
skips stalled tickets when it reaches them.

The model has three modules:

- **`Ticket`** (`ticket.dfy`) is the packed word and the C# arithmetic the lock does on it:
  - where each counter sits in the word, on either byte order;
  - `long` sign extension, the arithmetic `>>`, `<<` and the bitwise `|`;
  - the `IsHeld` test;
  - the two words of `TryEnter`'s compare-and-swap.

  Lanes and words are integers in `[0, 2^32)` and `[0, 2^64)`, and every signed operation is
  written out.
- **`SpinLocks`** (`spinlock.dfy`) is the class `SpinLock`. Its fields are the serve counter,
  the issue counter, the owner and the stall set. Each atomic step of the source is a method:
  - draw a ticket;
  - take the lock or abandon the ticket;
  - drain the stall set;
  - one `TryEnter` attempt;
  - `Exit`.

  `Enter`, `TryEnter` and `Exit` are built from these steps. The drain loop is specified by the
  function `Drain`, and lemmas state what `Drain` does.
- **`Scenarios`** (`scenarios.dfy`) runs several threads' steps on one fresh lock. Each thread
  is a caller id.

The class models the code as written. The source names its algorithm as the ticket lock
described at locklessinc.com (SpinLock.cs line 46), and says the lock is usable on both byte
orders (line 47). In that ticket lock, equal counters mean the lock is free; a thread that
takes the lock draws the ticket `users` and increments the issue counter; and a release
increments the serve counter. The arithmetic of the code departs from it in three places (see
Findings):

- **IsHeld.** In a ticket lock, the lock is held exactly when serve and issue differ. The code
  also reports equal counters as held when they are negative as ints, that is from 2^31 on.
- **TryEnter's stored word.** Taking a free ticket lock whose counters are both `u` leaves
  serve at `u` and issue at `u + 1`. The code leaves serve at `u + 1` and issue at `u`, on both
  byte orders. The next `Enter` then draws ticket `u`, whose turn has passed, and makes the
  counters equal again: the lock reads as free while the TryEnter caller still holds it, and a
  second `TryEnter` takes it too, so mutual exclusion is lost. If instead the holder exits
  first, serve is at `u + 2` and issue at `u`, and the lock reads as held with no holder.
- **TryEnter's expected word.** A ticket lock can be taken whenever its counters are equal.
  Because the code sign-extends `Users`, on a little-endian platform `TryEnter` never succeeds
  once the counters are negative as ints, except at -1.

Two further behaviours are modelled as the code has them:

- **Asynchronous exceptions in Enter.** `Enter` is marked as not safe against asynchronous
  exceptions (line 117). The model lets an exception arrive before the draw, between the draw
  and the store to `slot`, at any loop test, and on either side of each `++ticket.Value` in
  the first pass's drain (the `Interruption` parameter); each point has its outcome in Enter's
  contract. With no other thread acting, later passes remove nothing, so the exception
  reaches no other state. Between
  the increment and the store to `slot` (line 129), a ticket is issued that is never
  registered as stalled, so every later waiter waits in vain. Between a successful `TryRemove`
  and `++ticket.Value` (lines 135-136), the serve counter is left on a ticket that is no longer
  stalled, and nothing moves it on. After `++ticket.Value` and before the next `TryRemove`,
  the drain stops partway through the run, which the next drain finishes. At the loop test after the ticket is served, the `finally`
  block takes the lock and the exception still propagates.
- **Construction.** The comments at lines 92 and 100-113 ask callers on ahead-of-time compiled
  platforms to use the constructor. The default value of the struct behaves like
  `new SpinLock (false)`: a missing stall list acts as an empty one in every place the code
  touches it.

The only inputs from outside are these:

- The thread identity (`Thread.CurrentThread.ManagedThreadId`) is the `caller` parameter.
- The platform byte order (`BitConverter.IsLittleEndian`) is a constructor parameter.
- The stopwatch readings are a `clock` sequence.
- The point where an asynchronous exception interrupts `Enter` is an `Interruption` parameter.

## Model

| member | source | states |
|---|---|---|
| Ticket.Pack | System.Threading/System.Threading/SpinLock.cs:36-44 | the `Value` int is bytes 0..3 and `Users` bytes 4..7 of `TotalValue`: low and high half on a little-endian platform, high and low half otherwise |
| Ticket.PackLanes | System.Threading/System.Threading/SpinLock.cs:36-44 | reading both int fields of a word and packing them again gives back the word |
| Ticket.SignExtend | System.Threading/System.Threading/SpinLock.cs:177 | `long u = Users` keeps the int's value (two's-complement reading of both patterns); the low half holds the 32 bits and the high half the sign fill |
| Ticket.Inc | System.Threading/System.Threading/SpinLock.cs:129 | `Interlocked.Increment` on an int, and likewise `++ticket.Value` (lines 136 and 213-215): one more, with -1 wrapping round to 0 |
| Ticket.ShiftLeft32 | System.Threading/System.Threading/SpinLock.cs:178 | `<< 32` on a long is multiplication by 2^32 modulo 2^64: the low half moves up and zero fills the low half |
| Ticket.Add1 | System.Threading/System.Threading/SpinLock.cs:180 | `u + 1` on a long is one more, with -1 (all ones) wrapping round to 0 |
| Ticket.Or64 | System.Threading/System.Threading/SpinLock.cs:178-180 | the bitwise or of two longs, computed half by half, equals the bit-by-bit or of all 64 bits (`OrBits(a, b, 64)`); each half is the bitwise or of the corresponding int halves |
| Ticket.ShiftRight32 | System.Threading/System.Threading/SpinLock.cs:74 | `>> 32` on a long is floor division of the signed value by 2^32, i.e. the high half sign-extended |
| Ticket.HeldTest | System.Threading/System.Threading/SpinLock.cs:73-74 | the word test is true iff the halves differ or the high half is negative as an int |
| Ticket.HeldTestLanes | System.Threading/System.Threading/SpinLock.cs:73-74 | on either byte order, IsHeld is true iff `Value != Users`, or they are equal and negative |
| Ticket.FreeLockReadsHeld | System.Threading/System.Threading/SpinLock.cs:73-74 | counters both equal to 2^31 (a free lock after 2^31 acquisitions) read as held |
| Ticket.IntendedHeldTest | System.Threading/System.Threading/SpinLock.cs:73-74 | with an unsigned shift the test is true iff the counters differ, on either byte order |
| Ticket.FreeWord | System.Threading/System.Threading/SpinLock.cs:177-178 | `(u << 32)` or-ed with `u` has `Users` in the low half and, in the high half, `Users` if it is not negative and all ones if it is |
| Ticket.FreeWordMatches | System.Threading/System.Threading/SpinLock.cs:177-178 | the word equals the expected value exactly when `CasMatches`. Little-endian: equal counters and `Users` not negative or -1. Big-endian: `Value` equals `Users` if that is not negative, and equals -1 if it is |
| Ticket.TakenWord | System.Threading/System.Threading/SpinLock.cs:177-180 | where the swap can match, the stored word keeps `u` in the `Users` lane and puts `u + 1` in the `Value` lane on both byte orders; on a big-endian platform with a negative `Users` it stores the word it found |
| Ticket.TakenThenReleasedReadsHeld | System.Threading/System.Threading/SpinLock.cs:177-180 | wherever the swap can match and store a new word (on little-endian a `Users` that is not negative or is -1, on big-endian one that is not negative), after the stored word and the one increment of Exit, the counters are two apart and the lock reads as held |
| Ticket.IntendedFreeWord | System.Threading/System.Threading/SpinLock.cs:177-178 | with `Users` zero-extended, the expected word matches exactly when the counters are equal |
| Ticket.IntendedTakenWord | System.Threading/System.Threading/SpinLock.cs:179-180 | with the branches exchanged, serve stays `u` and issue becomes `u + 1` |
| Ticket.IntendedTakenThenDrawnReadsHeld | System.Threading/System.Threading/SpinLock.cs:179-180 | with the corrected words, the taken lock reads as held before and after the next Enter draws its ticket, and TryEnter's expected word matches neither state |
| Ticket.IntendedTakenThenReleasedIsFree | System.Threading/System.Threading/SpinLock.cs:179-180 | with the corrected words, TryEnter then one increment leaves equal counters: the corrected IsHeld test reads them as free, and the corrected expected word of the next TryEnter matches them |
| SpinLocks.Drain | System.Threading/System.Threading/SpinLock.cs:135-136 | the drain stops on a serve counter that is not stalled, only removes tickets, and changes nothing when the serve counter is not stalled |
| SpinLocks.DrainSkipsRun | System.Threading/System.Threading/SpinLock.cs:135-136 | the skipped tickets are consecutive from the serve counter, all were stalled, and the set loses exactly those; the counter stops on the ticket after the run |
| SpinLocks.DrainStaysBehind | System.Threading/System.Threading/SpinLock.cs:135-136 | if every stalled ticket is issued and not yet served, the drain never carries the serve counter past the issue counter, and the tickets left stay pending |
| SpinLocks.DrainCut | System.Threading/System.Threading/SpinLock.cs:135-136 | a drain cut right after a TryRemove leaves the serve counter on a ticket that was stalled and is no longer in the set, so no later drain moves it on; a serve counter that is not stalled is never cut |
| SpinLocks.DrainCutOnRun | System.Threading/System.Threading/SpinLock.cs:135-136 | the cut after `removed` skips strikes iff the full drain skips more than `removed` tickets; it then stops on the ticket `removed` places into the run, and the drain resumed from the next ticket ends where the full drain ends |
| SpinLocks.DrainSkipped | System.Threading/System.Threading/SpinLock.cs:135-136 | a drain stopped right after `++ticket.Value` has only removed tickets, and the drain resumed from where it stopped ends where the full drain ends; a serve counter that is not stalled is never stopped |
| SpinLocks.DrainInterrupted | System.Threading/System.Threading/SpinLock.cs:135-136 | the drain at an `InDrain` or `AfterSkip` point has only removed tickets, and a serve counter that is not stalled is never stopped |
| SpinLocks.IntendedFinishEnter | System.Threading/System.Threading/SpinLock.cs:138-147 | with "no ticket drawn" kept apart from every ticket, a call that drew none never takes the lock, and every drawn ticket not being served is registered and skipped by the drain |
| SpinLocks.DrainIdempotent | System.Threading/System.Threading/SpinLock.cs:174-175 | a second drain right after the first changes nothing, which is why a retried TryEnter attempt has no effect |
| SpinLocks.SpinLock.IsHeld | System.Threading/System.Threading/SpinLock.cs:70-76 | the result is the test of line 74 on the packed word, which holds iff `value != users` or both are equal and negative |
| SpinLocks.SpinLock.IsHeldByCurrentThread | System.Threading/System.Threading/SpinLock.cs:78-85 | without tracking it equals IsHeld; with tracking it is IsHeld and `caller == owner` |
| SpinLocks.SpinLock.constructor | System.Threading/System.Threading/SpinLock.cs:94-115 | both counters 0, owner 0, empty stall set, tracking flag as given; the lock is not held |
| SpinLocks.SpinLock.DrawTicket | System.Threading/System.Threading/SpinLock.cs:129 | returns the old `users` as the slot, increments `users` with 32-bit wrap-around, and changes nothing else |
| SpinLocks.SpinLock.DrainStalls | System.Threading/System.Threading/SpinLock.cs:135-136 | the loop leaves `value` and the stall set equal to `Drain` of the old ones, with `users` and owner unchanged; if every stalled ticket was pending, the serve counter does not pass the issue counter and the stalled tickets left stay pending |
| SpinLocks.SpinLock.DrainStallsCut | System.Threading/System.Threading/SpinLock.cs:135-136 | the same loop reached by an exception right after a TryRemove (`InDrain`) or right after `++ticket.Value` (`AfterSkip`): it ends in the `DrainInterrupted` state when the exception arrives, and in the `Drain` state otherwise |
| SpinLocks.SpinLock.FinishEnter | System.Threading/System.Threading/SpinLock.cs:138-147 | takes the lock and records the owner iff the slot is being served; otherwise it adds the slot to the stall set unless it is -1 |
| SpinLocks.SpinLock.Enter | System.Threading/System.Threading/SpinLock.cs:118-149 | see the list after this table |
| SpinLocks.SpinLock.TryEnterAttempt | System.Threading/System.Threading/SpinLock.cs:173-191 | drain; then succeed iff `CasMatches` on the drained serve counter and the old `users`. Success stores `TakenWord` and records the owner; failure leaves the drained state and the owner |
| SpinLocks.SpinLock.TryEnter | System.Threading/System.Threading/SpinLock.cs:161-193 | see the list after this table |
| SpinLocks.SpinLock.TryEnterImmediately | System.Threading/System.Threading/SpinLock.cs:151-154 | TryEnter with timeout 0: one attempt, `Acquired` or `TimedOut`, with the same validation and state as TryEnter |
| SpinLocks.SpinLock.Exit | System.Threading/System.Threading/SpinLock.cs:201-218 | see the list after this table |
| SpinLocks.SpinLock.ExitNoBarrier | System.Threading/System.Threading/SpinLock.cs:195-199 | the same contract as Exit without a barrier |
| Scenarios.StallRecovery | System.Threading/System.Threading/SpinLock.cs:139-147 | see the list after this table |
| Scenarios.TryEnterFreshLock | System.Threading/System.Threading/SpinLock.cs:177-191 | TryEnter on a fresh lock succeeds and leaves `Value` 1 and `Users` 0 |
| Scenarios.TryEnterThenDraw | System.Threading/System.Threading/SpinLock.cs:129 | after a TryEnter on a fresh lock, the next Enter draws ticket 0 and the counters meet at 1: the lock reads as free while it is held |
| Scenarios.TryEnterTwice | System.Threading/System.Threading/SpinLock.cs:177-191 | from there a second TryEnter also acquires the lock, and the serve counter moves to 2, past the waiter's ticket 0 |
| Scenarios.LoseTicket | System.Threading/System.Threading/SpinLock.cs:125-147 | an exception between the increment and the store to `slot` issues ticket 1 without registering it as stalled |
| Scenarios.LostTicket | System.Threading/System.Threading/SpinLock.cs:125-147 | after that, the holder's Exit stops the serve counter at the lost ticket 1, the waiter with ticket 2 is never served, and the lock reads as held with no holder |
| Scenarios.InterruptedWhenServed | System.Threading/System.Threading/SpinLock.cs:125-147 | an exception at the first loop test of an Enter on a free lock reports `lockTaken` true, and the lock is held |
| Scenarios.TryEnterThenExit | System.Threading/System.Threading/SpinLock.cs:173-216 | see the list after this table |
| Scenarios.EntryChecks | System.Threading/System.Threading/SpinLock.cs:118-168 | with tracking on and the lock held by thread 1: a set `lockTaken`, a timeout of -2, and re-entry through Enter and TryEnter are each rejected with their exception, and the lock is unchanged |
| Scenarios.OwnerChecks | System.Threading/System.Threading/SpinLock.cs:201-218 | see the list after this table |
| Scenarios.SkipInterrupted | System.Threading/System.Threading/SpinLock.cs:135-136 | from serve 1, issue 3 and tickets 1 and 2 stalled, an exception after the first skip leaves serve 2 with tickets 2 and 3 stalled, and the next Enter's drain finishes the run and takes the lock with ticket 4 |
| Scenarios.AbandonLastTicket | System.Threading/System.Threading/SpinLock.cs:139-147 | on a free lock at -2, the waiter that draws ticket -1 and is interrupted leaves it unregistered |
| Scenarios.SentinelTicket | System.Threading/System.Threading/SpinLock.cs:125-147 | after that, Exit stops the serve counter on ticket -1 and the lock reads as held with no holder; an Enter interrupted before its draw then reports the lock taken |

The longer contracts:

- **SpinLocks.SpinLock.Enter**
  - A set `lockTaken` fails with ArgumentError, and so does re-entry by the tracked owner with LockRecursion. Both leave the state unchanged.
  - An exception before the draw changes no counter. One between the increment and the store to `slot` moves `users` on by one, and that ticket is registered nowhere. In both cases the finally block finds `slot` still -1: it reports `lockTaken` true, and records the caller as owner, exactly when `Value` is -1.
  - Otherwise the slot is the old `users` and `users` moves on by one.
  - An exception at the loop test after `p` passes: the serve counter is the old value if `p` is 0 or the slot was already served, and `Drain` of it otherwise. The lock is taken iff the slot is served. The call succeeds only if the loop ended before that test. Otherwise the exception is reported with that `lockTaken`, which is true when it struck after the slot was served. An interrupted wait that did not take the lock registers its slot as stalled, unless the slot is -1.
  - An exception right after the TryRemove of the ticket `removed` places into the run of the first pass, or right after the `++ticket.Value` that moves past it, leaves the `DrainInterrupted` state. It registers the slot as stalled unless the slot is -1 or is being served. If the run is shorter, the wait ends as an uninterrupted one.
  - An uninterrupted call always takes the lock, with the serve counter at its slot.
- **SpinLocks.SpinLock.TryEnter**
  - The checks run in order, and each leaves the state unchanged: a timeout below -1 gives ArgumentOutOfRange, a set `lockTaken` gives ArgumentError, re-entry by the tracked owner gives LockRecursion.
  - Otherwise the result and state are those of the first attempt. A failure is reported as `TimedOut`, or as `Spinning` for timeout -1.
  - A success on a little-endian platform, or with a non-negative `Users`, leaves `value == users + 1` and `users` unchanged.
  - With timeout 0 and a clock that does not run backwards, it makes exactly one attempt.
- **SpinLocks.SpinLock.Exit**
  - With tracking on, a caller that does not hold the lock gets SynchronizationLock and nothing changes.
  - Otherwise the owner becomes `int.MinValue` and `users` is unchanged. `value` and the stall set become `Drain` of the old `value + 1`: the serve counter moves at least once, then past every stalled ticket it reaches.
- **Scenarios.StallRecovery**
  - Ticket 0 is held and ticket 1's waiter is interrupted, so ticket 1 is stalled; ticket 2 is drawn.
  - Exit by the holder moves `Value` to 2, and the waiter with ticket 2 takes the lock.
  - After its Exit the lock is free.
- **Scenarios.TryEnterThenExit**
  - After a TryEnter and an Exit on a fresh lock, `Value` is 2 and `Users` is 0, and the lock reads as held with no holder.
  - A second TryEnter times out.
  - An Enter can only be interrupted, and its ticket 0 ends in the stall set.
- **Scenarios.OwnerChecks**
  - After the steps of EntryChecks, an Exit by another thread is rejected with SynchronizationLock.
  - The owner's Exit succeeds and the lock is then free.

## Left out

- `SpinWait.SpinOnce` and its backoff (line 133): spinning has no sequential effect. The model keeps one pass of the drain per loop test.
- Interleaving inside a step, and memory ordering. Each method is one atomic step. `useMemoryBarrier` (lines 212-215) only chooses between `Interlocked.Increment` and `++`, which have the same sequential effect.
- Constrained execution regions (`PrepareConstrainedRegions`, the empty `try {}` blocks). Where an asynchronous exception reaches `Enter` is the `Interruption` parameter. `Exit` does all its work inside a `finally` block, and so does the compare-and-swap of `TryEnter`.
- Asynchronous exceptions in `TryEnter`. Its drain (lines 174-175) and the computation of the two words (lines 177-180) run outside the `finally` block, and the model does not let an exception arrive there. An exception between a successful `TryRemove` and `++ticket.Value` there would strand the serve counter as `DrainCut` describes for `Enter`.
- The `Watch` stopwatch (lines 60, 170, 192): its readings are the `clock` parameter.
- `TryEnter (TimeSpan, ref bool)` (line 158): it converts a floating-point millisecond count to int.
- `ConcurrentOrderedList` (lines 62, 114, 145) is not part of this model. The stall set is a `set` of ints with an atomic remove-if-present and add.
- The lazy creation of the stall list (lines 144-145) and its `null` checks. A missing list behaves as an empty set, so only the race-free creation is left out.
- Value semantics of the struct. `SpinLock` is a C# `struct` (line 53), so copying it copies the ticket word, the owner and the tracking flag, but both copies share one stall list: `stallTickets` is a reference, created at line 114 and published by the compare-and-swap at line 145, so a ticket abandoned through one copy can be removed by the other copy's drain. The model makes the lock a class, in which every reference shares all of the state; it expresses neither the copied fields nor the shared list.
- Debugger attributes (lines 51-52), and the `IsThreadOwnerTrackingEnabled` getter (lines 64-68), which returns the `trackOwner` field.
- SpinLocks.SpinLock.Enter: a call whose wait no exception ends (no interruption, or an `InDrain` or `AfterSkip` point the drain never reaches) requires that its ticket is served once the stalled tickets in front of it are skipped. With no other thread acting, the source's wait loop would spin forever.
- SpinLocks.SpinLock.TryEnter: with timeout -1, a failed first attempt returns `Spinning` instead of retrying forever. The contract proves that the state after a failed attempt is a fixed point of further attempts. With a finite timeout, the clock readings are required to reach the timeout.

## Findings

The class keeps the shipped arithmetic, because it models the code as written. For each finding, the model holds the shipped definition with a lemma or scenario that exhibits the discrepancy, and a corrected definition with the intended property proved. `Ticket.TakenThenReleasedReadsHeld` exhibits the first finding for a single thread, and `Ticket.IntendedTakenThenReleasedIsFree` is its corrected counterpart.

| source | as written | input that shows it | evidently intended | confidence | as-written member | corrected member |
|---|---|---|---|---|---|---|
| System.Threading/System.Threading/SpinLock.cs:179-180 | on both byte orders the stored word has `Value = u + 1` and `Users = u` | fresh lock: TryEnter by thread 1 leaves `Value = 1`, `Users = 0`; an Enter by thread 2 draws ticket 0 and makes both 1, so the lock reads as free while thread 1 holds it, and a TryEnter by thread 3 acquires it as well | `Value = u`, `Users = u + 1`, so the next Enter waits for the holder and Exit makes the counters equal again | high (not executed) | Scenarios.TryEnterTwice | Ticket.IntendedTakenThenDrawnReadsHeld |
| System.Threading/System.Threading/SpinLock.cs:73-74 | `>>` on a long copies the sign bit, and that is compared with the zero-extended low half | `Value = Users = 0x80000000`, reached after 2^31 acquire/release pairs; IsHeld is true | held iff the counters differ | high (not executed) | Ticket.FreeLockReadsHeld | Ticket.IntendedHeldTest |
| System.Threading/System.Threading/SpinLock.cs:177-178 | `long u = ticket.Users` sign-extends | little-endian, `Value = Users = 0x80000000`: the compare-and-swap never matches and TryEnter always times out | `Users` zero-extended, matching exactly when the counters are equal | high (not executed) | Ticket.FreeWordMatches | Ticket.IntendedFreeWord |
| System.Threading/System.Threading/SpinLock.cs:125-147 | `slot` starts at -1 for "no ticket drawn", and the finally block compares it with `ticket.Value` and skips registering it when it is -1 | a free lock whose counters have come round to -2: the waiter with ticket -1 is interrupted and its ticket is not registered, so Exit stops the serve counter there and the lock reads as held with no holder; an Enter interrupted before its draw then reports the lock taken without a ticket | "no ticket drawn" kept apart from every ticket, so every abandoned ticket is registered and an undrawn call never takes the lock | high (not executed) | Scenarios.SentinelTicket | SpinLocks.IntendedFinishEnter |

=== FILE: scenarios.dfy ===
/** Short runs of several threads' steps on one lock, each thread being a caller id. */
module Scenarios {
  import opened Ticket
  import opened SpinLocks

  /** Thread 1 holds the lock with ticket 0.  Thread 2 draws ticket 1, spins once and is
      interrupted, so ticket 1 is stalled; thread 3 draws ticket 2.  When thread 1 exits, the
      serve counter skips the stalled ticket and reaches 2, so thread 3 is served; after its
      own exit the lock is free again. */
  method StallRecovery(littleEndian: bool)
    returns (abandoned: Result<bool>, servedAfterExit: Lane, waiterTaken: bool, heldAtEnd: bool)
    ensures abandoned == Failure(Interrupted(false))
    ensures servedAfterExit == 2 && waiterTaken && !heldAtEnd
  {
    var lock := new SpinLock(false, littleEndian);
    var first := lock.Enter(1, false, Never);
    abandoned := lock.Enter(2, false, WhileSpinning(1));
    assert lock.stalls == {1};
    var slot := lock.DrawTicket();
    var released := lock.Exit(1, false);
    assert Drain(2, {}) == Drained(2, {}, []);
    servedAfterExit := lock.value;
    waiterTaken := lock.FinishEnter(slot, 3);
    released := lock.Exit(3, false);
    heldAtEnd := lock.IsHeld();
  }

  /** TryEnter on a fresh lock takes it, leaving the serve counter at 1 and the issue
      counter at 0. */
  method TryEnterFreshLock(littleEndian: bool) returns (lock: SpinLock, first: Result<TryOutcome>)
    ensures fresh(lock) && !lock.trackOwner
    ensures lock.value == 1 && lock.users == 0 && lock.stalls == {}
    ensures first == Success(Acquired)
  {
    lock := new SpinLock(false, littleEndian);
    assert Drain(0, {}) == Drained(0, {}, []);
    assert CasMatches(0, 0, littleEndian);
    first := lock.TryEnterImmediately(false, 1);
  }

  /** On a fresh lock, TryEnter succeeds but leaves the serve counter at 1 and the issue
      counter at 0; the Exit that follows moves the serve counter to 2.  With no other thread
      acting, the lock now reads as held with no holder: a second TryEnter times out, and an
      Enter can only wait until it is interrupted, leaving its ticket stalled. */
  method TryEnterThenExit(littleEndian: bool)
    returns (first: Result<TryOutcome>, served: Lane, issued: Lane, heldAfterExit: bool,
             second: Result<TryOutcome>, entered: Result<bool>, stalled: set<Lane>)
    ensures first == Success(Acquired)
    ensures served == 2 && issued == 0 && heldAfterExit
    ensures second == Success(TimedOut)
    ensures entered == Failure(Interrupted(false)) && stalled == {0}
  {
    var lock;
    lock, first := TryEnterFreshLock(littleEndian);
    var released := lock.Exit(1, false);
    assert Drain(2, {}) == Drained(2, {}, []);
    served, issued := lock.value, lock.users;
    heldAfterExit := lock.IsHeld();
    assert !CasMatches(2, 0, lock.littleEndian);
    second := lock.TryEnterImmediately(false, 2);
    entered := lock.Enter(2, false, WhileSpinning(3));
    stalled := lock.stalls;
  }

  /** Thread 1 takes a fresh lock with TryEnter, which leaves the serve counter at 1 and the
      issue counter at 0.  Thread 2's Enter then draws ticket 0, whose turn has already
      passed, and the counters meet: the lock reads as free while thread 1 still holds it. */
  method TryEnterThenDraw(littleEndian: bool)
    returns (lock: SpinLock, first: Result<TryOutcome>, slot: Lane, heldWhileTaken: bool)
    ensures fresh(lock) && !lock.trackOwner
    ensures lock.value == 1 && lock.users == 1 && lock.stalls == {}
    ensures first == Success(Acquired) && slot == 0 && !heldWhileTaken
  {
    lock, first := TryEnterFreshLock(littleEndian);
    slot := lock.DrawTicket();
    heldWhileTaken := lock.IsHeld();
  }

  /** Mutual exclusion is lost: after the steps of TryEnterThenDraw, a TryEnter by thread 3
      also takes the lock while thread 1 holds it, and the serve counter moves on to 2, past
      thread 2's ticket 0, which is never served. */
  method TryEnterTwice(littleEndian: bool)
    returns (first: Result<TryOutcome>, heldWhileTaken: bool, second: Result<TryOutcome>,
             served: Lane, waiterSlot: Lane)
    ensures first == Success(Acquired) && !heldWhileTaken && second == Success(Acquired)
    ensures served == 2 && waiterSlot == 0
  {
    var lock;
    lock, first, waiterSlot, heldWhileTaken := TryEnterThenDraw(littleEndian);
    assert Drain(1, {}) == Drained(1, {}, []);
    assert CasMatches(1, 1, lock.littleEndian);
    second := lock.TryEnterImmediately(false, 3);
    served := lock.value;
  }

  /** Thread 1 holds the lock with ticket 0.  Thread 2 is interrupted after the increment has
      issued ticket 1 but before `slot` records it, so ticket 1 is never registered as
      stalled. */
  method LoseTicket(littleEndian: bool) returns (lock: SpinLock, lost: Result<bool>)
    ensures fresh(lock) && !lock.trackOwner
    ensures lock.value == 0 && lock.users == 2 && lock.stalls == {}
    ensures lost == Failure(Interrupted(false))
  {
    lock := new SpinLock(false, littleEndian);
    var first := lock.Enter(1, false, Never);
    lost := lock.Enter(2, false, AfterIncrement);
  }

  /** After LoseTicket, thread 3 draws ticket 2.  Thread 1's Exit stops the serve counter at
      the lost ticket 1, so thread 3 waits until it is interrupted, and the lock reads as held
      with no holder. */
  method LostTicket(littleEndian: bool)
    returns (lost: Result<bool>, servedAfterExit: Lane, waited: Result<bool>, heldAtEnd: bool)
    ensures lost == Failure(Interrupted(false))
    ensures servedAfterExit == 1 && waited == Failure(Interrupted(false)) && heldAtEnd
  {
    var lock;
    lock, lost := LoseTicket(littleEndian);
    var released := lock.Exit(1, false);
    assert Drain(1, {}) == Drained(1, {}, []);
    servedAfterExit := lock.value;
    waited := lock.Enter(3, false, WhileSpinning(5));
    heldAtEnd := lock.IsHeld();
  }

  /** An exception that reaches Enter after the ticket is drawn on a free lock, before the
      loop test, leaves the lock taken by the caller while the exception still propagates:
      Enter reports `lockTaken` true through the exception. */
  method InterruptedWhenServed(littleEndian: bool) returns (r: Result<bool>, held: bool)
    ensures r == Failure(Interrupted(true)) && held
  {
    var lock := new SpinLock(false, littleEndian);
    r := lock.Enter(1, false, WhileSpinning(0));
    assert lock.value != lock.users;
    held := lock.IsHeld();
  }

  /** With owner tracking on, thread 1 takes a fresh lock; then a set `lockTaken`, a timeout
      below -1, and a second entry by the holder through Enter or TryEnter are all rejected
      without changing the lock. */
  method EntryChecks()
    returns (lock: SpinLock, reused: Result<bool>, badTimeout: Result<TryOutcome>,
             recursive: Result<bool>, retried: Result<TryOutcome>)
    ensures fresh(lock) && lock.trackOwner
    ensures lock.value == 0 && lock.users == 1 && lock.owner == 1 && lock.stalls == {}
    ensures reused == Failure(ArgumentError) && badTimeout == Failure(ArgumentOutOfRange)
    ensures recursive == Failure(LockRecursion) && retried == Failure(LockRecursion)
  {
    lock := new SpinLock(true, true);
    var entered := lock.Enter(1, false, Never);
    reused := lock.Enter(2, true, Never);
    ghost var attempts;
    badTimeout, attempts := lock.TryEnter(-2, false, 2, []);
    recursive := lock.Enter(1, false, Never);
    retried := lock.TryEnterImmediately(false, 1);
  }

  /** After EntryChecks, an exit by another thread is rejected without changing the lock; the
      holder's own exit succeeds and frees it. */
  method OwnerChecks()
    returns (reused: Result<bool>, badTimeout: Result<TryOutcome>, recursive: Result<bool>,
             retried: Result<TryOutcome>, foreignExit: Result<()>, ownExit: Result<()>,
             heldAtEnd: bool)
    ensures reused == Failure(ArgumentError) && badTimeout == Failure(ArgumentOutOfRange)
    ensures recursive == Failure(LockRecursion) && retried == Failure(LockRecursion)
    ensures foreignExit == Failure(SynchronizationLock) && ownExit == Success(())
    ensures !heldAtEnd
  {
    var lock;
    lock, reused, badTimeout, recursive, retried := EntryChecks();
    foreignExit := lock.Exit(2, true);
    ownExit := lock.ExitNoBarrier(1);
    heldAtEnd := lock.IsHeld();
  }

  /** A waiter's finally block that races an Exit can register a ticket the serve counter has
      already reached, so the lock can stand at serve 1, issue 3 with tickets 1 and 2
      stalled.  Thread 5 draws ticket 3, and an exception reaches it right after its drain
      has skipped ticket 1: ticket 2 is still stalled and ticket 3 is added.  The drain of the
      next Enter, by thread 6 with ticket 4, finishes the run and takes the lock. */
  method SkipInterrupted(lock: SpinLock)
    returns (interrupted: Result<bool>, servedThen: Lane, stalledThen: set<Lane>, next: Result<bool>)
    requires !lock.trackOwner && lock.value == 1 && lock.users == 3 && lock.stalls == {1, 2}
    modifies lock
    ensures interrupted == Failure(Interrupted(false)) && servedThen == 2 && stalledThen == {2, 3}
    ensures next == Success(true) && lock.value == 4 && lock.stalls == {}
  {
    assert DrainSkipped(1, {1, 2}, 0) == Stopped(2, {2});
    interrupted := lock.Enter(5, false, AfterSkip(0));
    servedThen, stalledThen := lock.value, lock.stalls;
    assert Drain(4, {}) == Drained(4, {}, []);
    assert Drain(3, {3}) == Drained(4, {}, [3]);
    assert Drain(2, {2, 3}).serve == 4;
    next := lock.Enter(6, false, Never);
  }

  /** On a free lock whose counters have come round to -2 (after 2^32 - 2 acquire/release
      pairs), thread 1 takes ticket -2, and thread 2 draws ticket -1 and is interrupted at its
      first loop test.  Ticket -1 is the value Enter uses for "no ticket drawn", so it is not
      registered as stalled. */
  method AbandonLastTicket(lock: SpinLock) returns (abandoned: Result<bool>)
    requires !lock.trackOwner && lock.value == 0xFFFF_FFFE && lock.users == 0xFFFF_FFFE
    requires lock.stalls == {}
    modifies lock
    ensures lock.value == 0xFFFF_FFFE && lock.users == 0 && lock.stalls == {} && lock.owner == 1
    ensures abandoned == Failure(Interrupted(false))
  {
    var first := lock.Enter(1, false, Never);
    abandoned := lock.Enter(2, false, WhileSpinning(0));
  }

  /** After AbandonLastTicket, thread 1's Exit stops the serve counter on the unregistered
      ticket -1, which nobody will take, so the lock reads as held with no holder.  An
      exception that reaches thread 3's Enter before it draws a ticket then finds `slot` equal
      to `ticket.Value` and reports the lock taken, with thread 3 as owner. */
  method SentinelTicket(lock: SpinLock)
    returns (abandoned: Result<bool>, served: Lane, heldAfterExit: bool, phantom: Result<bool>)
    requires !lock.trackOwner && lock.value == 0xFFFF_FFFE && lock.users == 0xFFFF_FFFE
    requires lock.stalls == {}
    modifies lock
    ensures abandoned == Failure(Interrupted(false)) && served == AllOnes && heldAfterExit
    ensures phantom == Failure(Interrupted(true)) && lock.owner == 3
  {
    abandoned := AbandonLastTicket(lock);
    var released := lock.Exit(1, false);
    assert Drain(AllOnes, {}) == Drained(AllOnes, {}, []);
    served := lock.value;
    assert lock.value != lock.users;
    heldAfterExit := lock.IsHeld();
    phantom := lock.Enter(3, false, BeforeTicket);
  }
}

=== FILE: spinlock.dfy ===
/** The ticket spin lock of System.Threading as a sequential state machine.

    A SpinLock holds the ticket word (a serve counter `value` and an issue counter `users`),
    the id of the thread that took the lock, the owner-tracking flag fixed at construction,
    and the set of stalled tickets: tickets drawn by waiters that gave up before being served,
    which the lock skips when it reaches them.

    Each method is one step of one thread.  The spinning of Enter and TryEnter is kept only as
    far as a single thread can observe it: with no other thread acting, a wait either ends
    after the stalled tickets in front of it are skipped, or it never ends. */
module SpinLocks {
  import opened Ticket

  /** A C# int (thread ids, timeouts). */
  type Int32 = x: int | -0x8000_0000 <= x < 0x8000_0000

  /** int.MinValue, the owner id Exit leaves behind. */
  const IntMinValue: Int32 := -0x8000_0000

  /** Enter's `slot` before a ticket is drawn: the int -1. */
  const NoSlot: Lane := AllOnes

  /** The exceptions the lock throws, and the asynchronous exception that can interrupt
      Enter (reported together with the `lockTaken` that Enter's finally block left). */
  datatype Error =
    | ArgumentError
    | ArgumentOutOfRange
    | LockRecursion
    | SynchronizationLock
    | Interrupted(lockTaken: bool)

  datatype Result<T> = Success(value: T) | Failure(error: Error)

  /** Where an asynchronous exception reaches Enter (SpinLock.cs lines 125-137):
      - `BeforeTicket`: before `Interlocked.Increment` draws a ticket;
      - `AfterIncrement`: after the increment has moved `Users`, before its result is stored in
        `slot`, which is still -1;
      - `WhileSpinning(passes)`: just before the loop condition `slot != ticket.Value` is evaluated
        for the `passes + 1`-th time, if the loop gets that far;
      - `InDrain(removed)`: in the drain of the loop's first pass, after `removed` stalled
        tickets have been skipped and TryRemove has taken the next one out of the set, before
        `++ticket.Value` moves past it;
      - `AfterSkip(removed)`: in the drain of the loop's first pass, after `++ticket.Value` has
        moved past the ticket `removed` places into the run, before the next TryRemove.
      If the run of stalled tickets is not long enough for an `InDrain` or `AfterSkip` point,
      the exception does not arrive. */
  datatype Interruption =
    | Never
    | BeforeTicket
    | AfterIncrement
    | WhileSpinning(passes: nat)
    | InDrain(removed: nat)
    | AfterSkip(removed: nat)

  /** How TryEnter ends: it took the lock, it gave up after the timeout, or (timeout -1) it
      failed and would retry forever because nothing else changes the lock. */
  datatype TryOutcome = Acquired | TimedOut | Spinning

  /** The result of skipping stalled tickets: the new serve counter, the stall set left, and
      the tickets skipped, in order. */
  datatype Drained = Drained(serve: Lane, stalls: set<Lane>, skipped: seq<Lane>)

  /** `run` is the tickets `from`, `from + 1`, ... (with 32-bit wrap-around), and `to` the
      ticket after the last of them. */
  predicate Consecutive(from: Lane, run: seq<Lane>, to: Lane)
    decreases |run|
  {
    if run == [] then from == to else run[0] == from && Consecutive(Inc(from), run[1..], to)
  }

  /** `while (stallTickets.TryRemove (ticket.Value)) ++ticket.Value` as a function of the serve
      counter and the stall set: every ticket removed is the one being served, and the counter
      moves past it.  The counter it stops at is not stalled. */
  function Drain(serve: Lane, stalls: set<Lane>): (r: Drained)
    ensures r.serve !in r.stalls && r.stalls <= stalls
    ensures serve !in stalls ==> r == Drained(serve, stalls, [])
    decreases |stalls|
  {
    if serve in stalls then
      var rest := Drain(Inc(serve), stalls - {serve});
      Drained(rest.serve, rest.stalls, [serve] + rest.skipped)
    else
      Drained(serve, stalls, [])
  }

  /** The drain skips a run of consecutive tickets starting at the serve counter, all of
      them stalled, removes exactly those from the stall set and stops on the ticket after
      the run. */
  lemma {:induction false} DrainSkipsRun(serve: Lane, stalls: set<Lane>)
    ensures var r := Drain(serve, stalls);
      && Consecutive(serve, r.skipped, r.serve)
      && (forall t :: t in r.skipped ==> t in stalls)
      && (forall t :: t in r.stalls <==> t in stalls && t !in r.skipped)
      && |r.stalls| + |r.skipped| == |stalls|
    decreases |stalls|
  {
    if serve in stalls {
      DrainSkipsRun(Inc(serve), stalls - {serve});
    }
  }

  /** How a drain ends when an exception may arrive inside it: it completes, or it stops with
      the serve counter and stall set it had reached. */
  datatype Cut = Completed | Stopped(serve: Lane, stalls: set<Lane>)

  /** The drain of `serve` and `stalls` interrupted right after TryRemove has taken the ticket
      `removed` places into the run out of the set, before `++ticket.Value` moves past it.
      A stranded serve counter names a ticket that is no longer stalled, so no later drain
      moves it on: the thread that drew that ticket gave it up, and no later ticket is served. */
  function DrainCut(serve: Lane, stalls: set<Lane>, removed: nat): (r: Cut)
    ensures r.Stopped? ==> r.serve in stalls && r.serve !in r.stalls && r.stalls < stalls
    ensures r.Stopped? ==> Drain(r.serve, r.stalls) == Drained(r.serve, r.stalls, [])
    ensures serve !in stalls ==> r == Completed
    decreases |stalls|
  {
    if serve !in stalls then Completed
    else if removed == 0 then Stopped(serve, stalls - {serve})
    else DrainCut(Inc(serve), stalls - {serve}, removed - 1)
  }

  /** The cut strikes exactly when the run the full drain skips is longer than `removed`. It
      then leaves the serve counter on the ticket `removed` places into that run, and had the
      drain gone on from the next ticket it would have ended where the full drain ends. */
  lemma {:induction false} DrainCutOnRun(serve: Lane, stalls: set<Lane>, removed: nat)
    ensures var d := Drain(serve, stalls);
      var c := DrainCut(serve, stalls, removed);
      && (c.Stopped? <==> removed < |d.skipped|)
      && (c.Stopped? ==>
            && c.serve == d.skipped[removed]
            && Drain(Inc(c.serve), c.stalls).serve == d.serve
            && Drain(Inc(c.serve), c.stalls).stalls == d.stalls)
    decreases |stalls|
  {
    if serve in stalls && removed > 0 {
      DrainCutOnRun(Inc(serve), stalls - {serve}, removed - 1);
    }
  }

  /** The drain of `serve` and `stalls` interrupted right after `++ticket.Value` has moved past
      the ticket `removed` places into the run, before the next TryRemove.  Nothing is lost:
      the drain resumed from where it stopped ends where the full drain ends. */
  function DrainSkipped(serve: Lane, stalls: set<Lane>, removed: nat): (r: Cut)
    ensures r.Stopped? ==> r.stalls < stalls
    ensures r.Stopped? ==>
      Drain(r.serve, r.stalls).serve == Drain(serve, stalls).serve
      && Drain(r.serve, r.stalls).stalls == Drain(serve, stalls).stalls
    ensures serve !in stalls ==> r == Completed
    decreases |stalls|
  {
    if serve !in stalls then Completed
    else if removed == 0 then Stopped(Inc(serve), stalls - {serve})
    else DrainSkipped(Inc(serve), stalls - {serve}, removed - 1)
  }

  /** The drain at the point an `InDrain` or `AfterSkip` interruption names. */
  function DrainInterrupted(serve: Lane, stalls: set<Lane>, at: Interruption): (r: Cut)
    requires at.InDrain? || at.AfterSkip?
    ensures r.Stopped? ==> r.stalls < stalls
    ensures serve !in stalls ==> r == Completed
  {
    if at.InDrain? then DrainCut(serve, stalls, at.removed) else DrainSkipped(serve, stalls, at.removed)
  }

  /** How many tickets `to` lies ahead of `from`, counting round the 32-bit wrap. */
  function Ahead(from: Lane, to: Lane): (n: nat)
    ensures n < 0x1_0000_0000 && (n == 0 <==> from == to)
  {
    (to - from) % 0x1_0000_0000
  }

  /** Moving `from` one ticket on brings every other ticket one closer. */
  lemma AheadInc(from: Lane, to: Lane)
    requires from != to
    ensures Ahead(Inc(from), to) == Ahead(from, to) - 1
  {
  }

  /** Every stalled ticket has been issued and not yet served: it lies from the serve
      counter up to, but not including, the issue counter. */
  predicate StallsPending(serve: Lane, users: Lane, stalls: set<Lane>) {
    forall t :: t in stalls ==> Ahead(serve, t) < Ahead(serve, users)
  }

  /** When the stalled tickets are all pending, draining never carries the serve counter past
      the issue counter, and the tickets still stalled remain pending. */
  lemma {:induction false} DrainStaysBehind(serve: Lane, users: Lane, stalls: set<Lane>)
    requires StallsPending(serve, users, stalls)
    ensures var d := Drain(serve, stalls);
      Ahead(serve, d.serve) <= Ahead(serve, users) && StallsPending(d.serve, users, d.stalls)
    decreases |stalls|
  {
    if serve in stalls {
      var rest := stalls - {serve};
      assert serve != users;
      AheadInc(serve, users);
      forall t | t in rest
        ensures Ahead(Inc(serve), t) < Ahead(Inc(serve), users)
      {
        AheadInc(serve, t);
      }
      DrainStaysBehind(Inc(serve), users, rest);
      var d := Drain(Inc(serve), rest);
      if d.serve != serve {
        AheadInc(serve, d.serve);
      }
    }
  }

  /** One step of the drain: a stalled serve counter is removed and the drain goes on from
      the next ticket. */
  lemma DrainUnfold(serve: Lane, stalls: set<Lane>)
    requires serve in stalls
    ensures Drain(serve, stalls).serve == Drain(Inc(serve), stalls - {serve}).serve
    ensures Drain(serve, stalls).stalls == Drain(Inc(serve), stalls - {serve}).stalls
  {
  }

  /** Draining twice is draining once: the serve counter it stops at is not stalled. */
  lemma DrainIdempotent(serve: Lane, stalls: set<Lane>)
    ensures var d := Drain(serve, stalls); Drain(d.serve, d.stalls) == Drained(d.serve, d.stalls, [])
  {
  }

  /** Enter's `slot` with "no ticket drawn" kept apart from every ticket, instead of sharing
      the int -1 with the ticket 0xFFFF_FFFF. */
  datatype Slot = Undrawn | Drawn(ticket: Lane)

  /** What the finally block of Enter decides: whether the lock is taken, and the stall set. */
  datatype Finished = Finished(taken: bool, stalls: set<Lane>)

  /** The finally block of Enter with `Slot` in place of the value -1: a call that drew no
      ticket never takes the lock, and every drawn ticket that is not being served is
      registered as stalled, so the drain skips it when the serve counter reaches it. */
  function IntendedFinishEnter(serve: Lane, slot: Slot, stalls: set<Lane>): (r: Finished)
    ensures r.taken <==> slot == Drawn(serve)
    ensures slot == Undrawn ==> r.stalls == stalls
    ensures slot.Drawn? && !r.taken ==>
      r.stalls == stalls + {slot.ticket} && slot.ticket in Drain(slot.ticket, r.stalls).skipped
  {
    match slot
    case Undrawn => Finished(false, stalls)
    case Drawn(t) => if t == serve then Finished(true, stalls) else Finished(false, stalls + {t})
  }

  class SpinLock {
    /** isThreadOwnerTrackingEnabled */
    const trackOwner: bool
    /** BitConverter.IsLittleEndian on the platform the lock runs on. */
    const littleEndian: bool
    /** ticket.Value, the serve counter. */
    var value: Lane
    /** ticket.Users, the issue counter. */
    var users: Lane
    /** threadWhoTookLock */
    var owner: Int32
    /** stallTickets */
    var stalls: set<Lane>

    /** ticket.TotalValue */
    function TotalValue(): Word
      reads this
    {
      Pack(value, users, littleEndian)
    }

    /** IsHeld: the counters differ, or are equal and negative (the test of SpinLock.cs line
        74 reads the high half of the word as signed). */
    function IsHeld(): (r: bool)
      reads this
      ensures r <==> HeldTest(TotalValue())
    {
      HeldTestLanes(value, users, littleEndian);
      value != users || Negative(value)
    }

    /** IsHeldByCurrentThread for the thread whose ManagedThreadId is `caller`. */
    function IsHeldByCurrentThread(caller: Int32): (r: bool)
      reads this
      ensures !trackOwner ==> (r <==> IsHeld())
      ensures trackOwner ==> (r <==> IsHeld() && caller == owner)
    {
      if trackOwner then IsHeld() && caller == owner else IsHeld()
    }

    /** The checks Enter and TryEnter make before touching the lock pass. */
    predicate AcceptsEntry(lockTaken: bool, caller: Int32)
      reads this
    {
      !lockTaken && !(trackOwner && IsHeldByCurrentThread(caller))
    }

    /** `new SpinLock (enableThreadOwnerTracking)`: both counters 0, owner 0, no stalled
        tickets.  The struct's default value behaves the same way with tracking off, since
        an absent stall list acts as an empty one. */
    constructor (enableThreadOwnerTracking: bool, isLittleEndian: bool)
      ensures trackOwner == enableThreadOwnerTracking && littleEndian == isLittleEndian
      ensures value == 0 && users == 0 && owner == 0 && stalls == {}
      ensures !IsHeld()
    {
      trackOwner := enableThreadOwnerTracking;
      littleEndian := isLittleEndian;
      value := 0;
      users := 0;
      owner := 0;
      stalls := {};
    }

    /** `Interlocked.Increment (ref ticket.Users) - 1`: take the next ticket. */
    method DrawTicket() returns (slot: Lane)
      modifies this
      ensures slot == old(users) && users == Inc(old(users))
      ensures value == old(value) && owner == old(owner) && stalls == old(stalls)
    {
      slot := users;
      users := Inc(users);
    }

    /** Skip the stalled tickets at the head of the queue, one TryRemove at a time. */
    method DrainStalls()
      modifies this
      ensures value == Drain(old(value), old(stalls)).serve
      ensures stalls == Drain(old(value), old(stalls)).stalls
      ensures users == old(users) && owner == old(owner)
      ensures StallsPending(old(value), users, old(stalls)) ==>
        Ahead(old(value), value) <= Ahead(old(value), users) && StallsPending(value, users, stalls)
    {
      if StallsPending(value, users, stalls) {
        DrainStaysBehind(value, users, stalls);
      }
      ghost var d := Drain(value, stalls);
      var removed := value in stalls;
      if removed {
        DrainUnfold(value, stalls);
      }
      stalls := stalls - {value};
      while removed
        invariant users == old(users) && owner == old(owner)
        invariant removed ==> Drain(Inc(value), stalls).serve == d.serve
        invariant removed ==> Drain(Inc(value), stalls).stalls == d.stalls
        invariant !removed ==> value == d.serve && stalls == d.stalls
        decreases |stalls| + (if removed then 1 else 0)
      {
        value := Inc(value);
        removed := value in stalls;
        if removed {
          DrainUnfold(value, stalls);
        }
        stalls := stalls - {value};
      }
    }

    /** The drain of Enter's first pass, reached by an exception at the point `at` names:
        right after TryRemove has taken the ticket `removed` places into the run (`InDrain`),
        or right after `++ticket.Value` has moved past it (`AfterSkip`); `cut` tells whether
        the exception arrived. */
    method DrainStallsCut(at: Interruption) returns (cut: bool)
      requires at.InDrain? || at.AfterSkip?
      modifies this
      ensures var c := DrainInterrupted(old(value), old(stalls), at);
        (cut <==> c.Stopped?) && (cut ==> value == c.serve && stalls == c.stalls)
      ensures !cut ==>
        value == Drain(old(value), old(stalls)).serve && stalls == Drain(old(value), old(stalls)).stalls
      ensures users == old(users) && owner == old(owner)
    {
      ghost var c := DrainInterrupted(value, stalls, at);
      ghost var d := Drain(value, stalls);
      var n := 0;
      cut := false;
      while !cut && value in stalls
        invariant users == old(users) && owner == old(owner)
        invariant !cut ==> n <= at.removed
        invariant !cut && at.InDrain? ==> DrainCut(value, stalls, at.removed - n) == c
        invariant !cut && at.AfterSkip? ==> DrainSkipped(value, stalls, at.removed - n) == c
        invariant !cut ==> Drain(value, stalls).serve == d.serve && Drain(value, stalls).stalls == d.stalls
        invariant cut ==> c == Stopped(value, stalls)
        decreases |stalls|
      {
        DrainUnfold(value, stalls);
        stalls := stalls - {value};
        if n == at.removed && at.InDrain? {
          cut := true;
        } else {
          value := Inc(value);
          if n == at.removed {
            cut := true;
          } else {
            n := n + 1;
          }
        }
      }
    }

    /** The finally block of Enter: take the lock if `slot` is being served; otherwise give
        the ticket up by adding it to the stall set, unless no ticket was drawn (`slot` is
        still -1). */
    method FinishEnter(slot: Lane, caller: Int32) returns (lockTaken: bool)
      modifies this
      ensures lockTaken <==> slot == old(value)
      ensures lockTaken ==> owner == caller && stalls == old(stalls)
      ensures !lockTaken ==> owner == old(owner)
      ensures !lockTaken ==> stalls == if slot == NoSlot then old(stalls) else old(stalls) + {slot}
      ensures value == old(value) && users == old(users)
    {
      lockTaken := false;
      if slot == value {
        lockTaken := true;
        owner := caller;
      } else if slot != NoSlot {
        stalls := stalls + {slot};
      }
    }

    /** Enter (ref lockTaken) for the thread `caller`, reached by an asynchronous exception
        at the point `interruption` names.  A wait the exception does not end returns only if
        the ticket is served once the stalled tickets in front of it are skipped, since no
        other thread acts; the precondition asks that. */
    method Enter(caller: Int32, lockTaken: bool, interruption: Interruption) returns (r: Result<bool>)
      requires AcceptsEntry(lockTaken, caller)
        && (interruption == Never
            || ((interruption.InDrain? || interruption.AfterSkip?)
                && DrainInterrupted(value, stalls, interruption).Completed?))
        ==> value == users || Drain(value, stalls).serve == users
      modifies this
      ensures lockTaken ==> r == Failure(ArgumentError) && unchanged(this)
      ensures !lockTaken && trackOwner && old(IsHeldByCurrentThread(caller)) ==>
        r == Failure(LockRecursion) && unchanged(this)
      ensures old(AcceptsEntry(lockTaken, caller)) && (interruption == BeforeTicket || interruption == AfterIncrement) ==>
        var taken := old(value) == NoSlot;
        && value == old(value) && stalls == old(stalls)
        && users == (if interruption == BeforeTicket then old(users) else Inc(old(users)))
        && r == Failure(Interrupted(taken))
        && owner == if taken then caller else old(owner)
      ensures old(AcceptsEntry(lockTaken, caller)) && interruption.WhileSpinning? ==>
        var slot, p := old(users), interruption.passes;
        var waited := if slot == old(value) || p == 0
          then Drained(old(value), old(stalls), []) else Drain(old(value), old(stalls));
        var taken := waited.serve == slot;
        var interrupted := p == 0 || (slot != old(value) && (p == 1 || !taken));
        && users == Inc(slot) && value == waited.serve
        && r == (if interrupted then Failure(Interrupted(taken)) else Success(true))
        && owner == (if taken then caller else old(owner))
        && stalls == if taken || slot == NoSlot then waited.stalls else waited.stalls + {slot}
      ensures old(AcceptsEntry(lockTaken, caller)) && (interruption.InDrain? || interruption.AfterSkip?) ==>
        var slot := old(users);
        var c := if slot == old(value) then Completed
          else DrainInterrupted(old(value), old(stalls), interruption);
        && users == Inc(slot)
        && (c.Stopped? ==>
              var taken := c.serve == slot;
              && value == c.serve && r == Failure(Interrupted(taken))
              && owner == (if taken then caller else old(owner))
              && stalls == if taken || slot == NoSlot then c.stalls else c.stalls + {slot})
        && (c.Completed? ==>
              && value == slot && r == Success(true) && owner == caller
              && stalls == if slot == old(value) then old(stalls) else Drain(old(value), old(stalls)).stalls)
      ensures old(AcceptsEntry(lockTaken, caller)) && interruption == Never ==>
        && r == Success(true) && owner == caller && value == old(users) && users == Inc(old(users))
        && stalls == if old(users) == old(value) then old(stalls) else Drain(old(value), old(stalls)).stalls
    {
      if lockTaken {
        return Failure(ArgumentError);
      }
      if trackOwner && IsHeldByCurrentThread(caller) {
        return Failure(LockRecursion);
      }
      var slot := NoSlot;
      var interrupted := true;
      if interruption != BeforeTicket {
        var drawn := DrawTicket();
        if interruption != AfterIncrement {
          slot := drawn;
          ghost var v0, s0 := value, stalls;
          ghost var d := Drain(v0, s0);
          var passes := 0;
          interrupted := interruption == WhileSpinning(0);
          while !interrupted && slot != value
            invariant users == Inc(slot) && slot == old(users) && owner == old(owner)
            invariant passes == 0 ==> value == v0 && stalls == s0
            invariant passes == 0 && !interruption.WhileSpinning? ==> !interrupted
            invariant passes > 0 ==> slot != v0
            invariant passes > 1 ==> slot != d.serve
            invariant passes > 0 && !((interruption.InDrain? || interruption.AfterSkip?) && interrupted) ==>
              value == d.serve && stalls == d.stalls
            invariant (interruption.InDrain? || interruption.AfterSkip?) && passes > 0 ==>
              var c := DrainInterrupted(v0, s0, interruption);
              passes == 1 && (interrupted <==> c.Stopped?)
              && (c.Stopped? ==> value == c.serve && stalls == c.stalls)
            invariant interruption.WhileSpinning? ==>
              passes <= interruption.passes && (interrupted <==> passes == interruption.passes)
            invariant !interruption.WhileSpinning? ==> passes <= 1
            invariant interruption == Never ==> !interrupted
            decreases (if interruption.WhileSpinning? then interruption.passes else 1) - passes
          {
            if (interruption.InDrain? || interruption.AfterSkip?) && passes == 0 {
              interrupted := DrainStallsCut(interruption);
            } else {
              DrainStalls();
            }
            passes := passes + 1;
            if interruption == WhileSpinning(passes) {
              interrupted := true;
            }
          }
        }
      }
      var taken := FinishEnter(slot, caller);
      r := if interrupted then Failure(Interrupted(taken)) else Success(taken);
    }

    /** One pass of TryEnter's do-while: skip the stalled tickets, then compare-and-swap the
        whole word from `(u << 32) | u` to the word of SpinLock.cs line 180, `u` being `Users`
        sign-extended. */
    method TryEnterAttempt(caller: Int32) returns (lockTaken: bool)
      modifies this
      ensures var d := Drain(old(value), old(stalls));
        && (lockTaken <==> CasMatches(d.serve, old(users), littleEndian))
        && stalls == d.stalls
        && (lockTaken ==> TotalValue() == TakenWord(old(users), littleEndian) && owner == caller)
        && (!lockTaken ==> value == d.serve && users == old(users) && owner == old(owner))
    {
      DrainStalls();
      var expected := FreeWord(users);
      var desired := TakenWord(users, littleEndian);
      FreeWordMatches(value, users, littleEndian);
      lockTaken := TotalValue() == expected;
      if lockTaken {
        value, users := ValueLane(desired, littleEndian), UsersLane(desired, littleEndian);
        PackLanes(desired, littleEndian);
        owner := caller;
      }
    }

    /** TryEnter (millisecondsTimeout, ref lockTaken) for the thread `caller`.  `clock` holds
        the successive readings of the stopwatch: the start time, then one reading per test
        of the loop condition. */
    method TryEnter(millisecondsTimeout: Int32, lockTaken: bool, caller: Int32, clock: seq<int>)
      returns (r: Result<TryOutcome>, ghost attempts: nat)
      requires millisecondsTimeout >= 0 && AcceptsEntry(lockTaken, caller) ==>
        |clock| >= 2 && clock[|clock| - 1] - clock[0] >= millisecondsTimeout
      modifies this
      ensures millisecondsTimeout < -1 ==> r == Failure(ArgumentOutOfRange) && unchanged(this)
      ensures millisecondsTimeout >= -1 && lockTaken ==> r == Failure(ArgumentError) && unchanged(this)
      ensures millisecondsTimeout >= -1 && !lockTaken && trackOwner && old(IsHeldByCurrentThread(caller)) ==>
        r == Failure(LockRecursion) && unchanged(this)
      ensures millisecondsTimeout >= -1 && old(AcceptsEntry(lockTaken, caller)) ==>
        var d := Drain(old(value), old(stalls));
        var taken := CasMatches(d.serve, old(users), littleEndian);
        && r == Success(if taken then Acquired else if millisecondsTimeout == -1 then Spinning else TimedOut)
        && stalls == d.stalls
        && (taken ==> TotalValue() == TakenWord(old(users), littleEndian) && owner == caller)
        && (!taken ==> value == d.serve && users == old(users) && owner == old(owner))
      ensures millisecondsTimeout >= -1 && old(AcceptsEntry(lockTaken, caller))
        && r == Success(Acquired) && (littleEndian || !Negative(old(users)))
        ==> value == Inc(old(users)) && users == old(users)
      ensures millisecondsTimeout == 0 && old(AcceptsEntry(lockTaken, caller)) && clock[1] >= clock[0] ==>
        attempts == 1
    {
      attempts := 0;
      if millisecondsTimeout < -1 {
        return Failure(ArgumentOutOfRange), attempts;
      }
      if lockTaken {
        return Failure(ArgumentError), attempts;
      }
      if trackOwner && IsHeldByCurrentThread(caller) {
        return Failure(LockRecursion), attempts;
      }
      var start := if millisecondsTimeout == -1 then 0 else clock[0];
      ghost var d := Drain(value, stalls);
      ghost var u0 := users;
      var taken := TryEnterAttempt(caller);
      attempts := 1;
      if !taken && millisecondsTimeout == -1 {
        return Success(Spinning), attempts;
      }
      if taken {
        return Success(Acquired), attempts;
      }
      var k := 1;
      while !taken && clock[k] - start < millisecondsTimeout
        invariant 1 <= k < |clock| && start == clock[0]
        invariant forall j :: 1 <= j < k ==> clock[j] - start < millisecondsTimeout
        invariant !taken && value == d.serve && stalls == d.stalls && users == u0 && owner == old(owner)
        invariant k == 1 ==> attempts == 1
        decreases |clock| - k
      {
        taken := TryEnterAttempt(caller);
        attempts := attempts + 1;
        k := k + 1;
      }
      r := Success(TimedOut);
    }

    /** TryEnter (ref lockTaken): TryEnter with a timeout of 0, which makes exactly one
        attempt. */
    method TryEnterImmediately(lockTaken: bool, caller: Int32) returns (r: Result<TryOutcome>)
      modifies this
      ensures lockTaken ==> r == Failure(ArgumentError) && unchanged(this)
      ensures !lockTaken && trackOwner && old(IsHeldByCurrentThread(caller)) ==>
        r == Failure(LockRecursion) && unchanged(this)
      ensures old(AcceptsEntry(lockTaken, caller)) ==>
        var d := Drain(old(value), old(stalls));
        var taken := CasMatches(d.serve, old(users), littleEndian);
        && r == Success(if taken then Acquired else TimedOut)
        && stalls == d.stalls
        && (taken ==> TotalValue() == TakenWord(old(users), littleEndian) && owner == caller)
        && (!taken ==> value == d.serve && users == old(users) && owner == old(owner))
    {
      ghost var attempts;
      r, attempts := TryEnter(0, lockTaken, caller, [0, 0]);
    }

    /** Exit (useMemoryBarrier): with tracking on, only the owner may exit.  Otherwise the
        owner is cleared, the serve counter moves on by one, and then on past every stalled
        ticket it reaches. `useMemoryBarrier` only picks the kind of increment. */
    method Exit(caller: Int32, useMemoryBarrier: bool) returns (r: Result<()>)
      modifies this
      ensures trackOwner && !old(IsHeldByCurrentThread(caller)) ==>
        r == Failure(SynchronizationLock) && unchanged(this)
      ensures !(trackOwner && !old(IsHeldByCurrentThread(caller))) ==>
        var d := Drain(Inc(old(value)), old(stalls));
        r == Success(()) && owner == IntMinValue && users == old(users)
        && value == d.serve && stalls == d.stalls
    {
      if trackOwner && !IsHeldByCurrentThread(caller) {
        return Failure(SynchronizationLock);
      }
      owner := IntMinValue;
      value := Inc(value);
      DrainStalls();
      r := Success(());
    }

    /** Exit (): Exit without a memory barrier. */
    method ExitNoBarrier(caller: Int32) returns (r: Result<()>)
      modifies this
      ensures trackOwner && !old(IsHeldByCurrentThread(caller)) ==>
        r == Failure(SynchronizationLock) && unchanged(this)
      ensures !(trackOwner && !old(IsHeldByCurrentThread(caller))) ==>
        var d := Drain(Inc(old(value)), old(stalls));
        r == Success(()) && owner == IntMinValue && users == old(users)
        && value == d.serve && stalls == d.stalls
    {
      r := Exit(caller, false);
    }
  }
}

=== FILE: ticket.dfy ===
/** The ticket word of the spin lock (TicketType) and the 32- and 64-bit arithmetic the lock
    performs on it.

    In the source one 8-byte struct overlays a long TotalValue (byte offset 0) with two ints:
    Value, the serve counter, at byte offset 0, and Users, the issue counter, at byte
    offset 4.  Which half of TotalValue each int occupies depends on the byte order of the
    platform, so every layout function here takes `littleEndian`.

    A Lane is the bit pattern of a C# int read as an unsigned number, a Word the bit pattern of
    a C# long.  The places where the source treats them as signed (the sign extension of an
    int into a long, the arithmetic right shift of a long) are written out below, and so is
    the bitwise `|` of two longs. */
module Ticket {

  /** The bits of a C# int, 0 .. 2^32 - 1; the patterns from 2^31 up are the negative ints. */
  type Lane = x: int | 0 <= x < 0x1_0000_0000

  /** The bits of a C# long, 0 .. 2^64 - 1. */
  type Word = x: int | 0 <= x < 0x1_0000_0000_0000_0000

  /** The pattern of int.MinValue, the smallest lane that reads as negative. */
  const SignBit: Lane := 0x8000_0000

  /** The pattern of the int -1. */
  const AllOnes: Lane := 0xFFFF_FFFF

  /** The lane, read as a C# int, is negative: its top bit is set. */
  predicate Negative(x: Lane) {
    x >= 0x8000_0000
  }

  /** The value of a C# int with bit pattern `x` (two's complement). */
  function Signed32(x: Lane): int {
    if Negative(x) then x - 0x1_0000_0000 else x
  }

  /** The value of a C# long with bit pattern `w` (two's complement). */
  function Signed64(w: Word): int {
    if w >= 0x8000_0000_0000_0000 then w - 0x1_0000_0000_0000_0000 else w
  }

  /** `x + 1` on a C# int (unchecked, as Interlocked.Increment and `++` are): -1 wraps to 0. */
  function Inc(x: Lane): (r: Lane)
    ensures r == if x == AllOnes then 0 else x + 1
  {
    (x + 1) % 0x1_0000_0000
  }

  // ---------------------------------------------------------------------------------------
  // Halves of a word

  /** The low 32 bits of a word. */
  function Low(w: Word): (r: Lane) {
    w % 0x1_0000_0000
  }

  /** The high 32 bits of a word. */
  function High(w: Word): (r: Lane) {
    w / 0x1_0000_0000
  }

  /** The word whose halves are `hi` and `lo`. */
  function Join(hi: Lane, lo: Lane): (w: Word)
    ensures High(w) == hi && Low(w) == lo
  {
    hi * 0x1_0000_0000 + lo
  }

  /** A word is determined by its two halves. */
  lemma JoinHalves(w: Word)
    ensures Join(High(w), Low(w)) == w
  {
  }

  // ---------------------------------------------------------------------------------------
  // Layout of TicketType

  /** The int `ticket.Value` reads: bytes 0..3 of the word. */
  function ValueLane(w: Word, littleEndian: bool): (r: Lane) {
    if littleEndian then Low(w) else High(w)
  }

  /** The int `ticket.Users` reads: bytes 4..7 of the word. */
  function UsersLane(w: Word, littleEndian: bool): (r: Lane) {
    if littleEndian then High(w) else Low(w)
  }

  /** `ticket.TotalValue` when the two int fields hold `value` and `users`. */
  function Pack(value: Lane, users: Lane, littleEndian: bool): (w: Word)
    ensures ValueLane(w, littleEndian) == value
    ensures UsersLane(w, littleEndian) == users
  {
    if littleEndian then Join(users, value) else Join(value, users)
  }

  /** Reading both int fields and packing them again gives back the long. */
  lemma PackLanes(w: Word, littleEndian: bool)
    ensures Pack(ValueLane(w, littleEndian), UsersLane(w, littleEndian), littleEndian) == w
  {
  }

  // ---------------------------------------------------------------------------------------
  // Operators on long

  /** `long u = i` for an int `i`: two's-complement sign extension. */
  function SignExtend(x: Lane): (r: Word)
    ensures Signed64(r) == Signed32(x)
    ensures Low(r) == x
    ensures High(r) == if Negative(x) then AllOnes else 0
  {
    if Negative(x) then Join(AllOnes, x) else Join(0, x)
  }

  /** `w >> 32` on a long: C#'s right shift of a signed operand copies the sign bit in, so the
      result is the high half, sign-extended. */
  function ShiftRight32(w: Word): (r: Word)
    ensures Signed64(r) == Signed64(w) / 0x1_0000_0000
    ensures r == SignExtend(High(w))
  {
    if w >= 0x8000_0000_0000_0000 then Join(AllOnes, High(w)) else Join(0, High(w))
  }

  /** `w << 32` on a long: multiplication by 2^32 modulo 2^64, so the low half moves up and
      the high half falls off. */
  function ShiftLeft32(w: Word): (r: Word)
    ensures r == (w * 0x1_0000_0000) % 0x1_0000_0000_0000_0000
    ensures High(r) == Low(w) && Low(r) == 0
  {
    assert w == High(w) * 0x1_0000_0000 + Low(w);
    assert w * 0x1_0000_0000 == High(w) * 0x1_0000_0000_0000_0000 + Low(w) * 0x1_0000_0000;
    Join(Low(w), 0)
  }

  /** `w + 1` on a long (unchecked). */
  function Add1(w: Word): (r: Word)
    ensures r == if w == 0xFFFF_FFFF_FFFF_FFFF then 0 else w + 1
  {
    (w + 1) % 0x1_0000_0000_0000_0000
  }

  function Pow2(n: nat): (r: nat)
    ensures r >= 1
  {
    if n == 0 then 1 else 2 * Pow2(n - 1)
  }

  lemma {:induction false} Pow2Add(a: nat, b: nat)
    ensures Pow2(a + b) == Pow2(a) * Pow2(b)
  {
    if a > 0 {
      Pow2Add(a - 1, b);
      assert Pow2(a + b) == 2 * Pow2(a - 1 + b);
    }
  }

  lemma Pow2Of32()
    ensures Pow2(32) == 0x1_0000_0000
  {
    assert Pow2(2) == 4;
    assert Pow2(4) == 16;
    Pow2Add(4, 4);
    Pow2Add(8, 8);
    Pow2Add(16, 16);
  }

  /** The bitwise or of the low `n` bits of `a` and `b`. */
  function OrBits(a: nat, b: nat, n: nat): (r: nat)
    ensures r < Pow2(n)
  {
    if n == 0 then 0
    else 2 * OrBits(a / 2, b / 2, n - 1) + (if a % 2 == 1 || b % 2 == 1 then 1 else 0)
  }

  /** Or-ing in zero bits changes nothing. */
  lemma {:induction false} OrBitsZero(a: nat, n: nat)
    requires a < Pow2(n)
    ensures OrBits(a, 0, n) == a && OrBits(0, a, n) == a
  {
    if n > 0 {
      assert a / 2 < Pow2(n - 1);
      OrBitsZero(a / 2, n - 1);
    }
  }

  /** Or-ing in all-one bits gives all ones. */
  lemma {:induction false} OrBitsOnes(a: nat, n: nat)
    requires a < Pow2(n)
    ensures OrBits(Pow2(n) - 1, a, n) == Pow2(n) - 1 && OrBits(a, Pow2(n) - 1, n) == Pow2(n) - 1
  {
    if n > 0 {
      var half := Pow2(n - 1);
      assert Pow2(n) - 1 == 2 * (half - 1) + 1;
      assert (Pow2(n) - 1) / 2 == half - 1 && (Pow2(n) - 1) % 2 == 1;
      assert a / 2 < half;
      OrBitsOnes(a / 2, n - 1);
    }
  }

  /** `x | y` on two ints. */
  function Or32(x: Lane, y: Lane): (r: Lane) {
    Pow2Of32();
    OrBits(x, y, 32)
  }

  /** `k * d` is at least `k` for a positive `d`. */
  lemma MulAtLeast(k: int, d: int)
    requires k > 0 && d >= 1
    ensures k * d >= k
  {
    assert k * d == k * (d - 1) + k;
    assert k * (d - 1) >= 0;
  }

  /** Division by `k` is the one quotient whose remainder lies in 0 .. k - 1. */
  lemma DivUnique(a: int, k: int, q: int, r: int)
    requires k > 0 && 0 <= r < k && a == k * q + r
    ensures a / k == q && a % k == r
  {
    var q', r' := a / k, a % k;
    assert a == k * q' + r';
    if q > q' {
      MulAtLeast(k, q - q');
    } else if q < q' {
      MulAtLeast(k, q' - q);
    }
  }

  /** Doubling a factor doubles the product. */
  lemma MulDouble(x: nat, k: nat)
    ensures x * (2 * k) == 2 * (x * k)
  {
  }

  /** Halving `high * 2k + low` halves `low` and keeps its parity. */
  lemma HalveJoined(high: nat, low: nat, k: nat)
    requires k >= 1
    ensures (high * (2 * k) + low) / 2 == high * k + low / 2
    ensures (high * (2 * k) + low) % 2 == low % 2
  {
    assert high * (2 * k) + low == 2 * (high * k + low / 2) + low % 2;
    DivUnique(high * (2 * k) + low, 2, high * k + low / 2, low % 2);
  }

  /** The or of `m + n` bits of two numbers written as `high * 2^m + low`: the or of the
      high parts, shifted up, plus the or of the low parts. */
  lemma {:induction false} OrBitsJoin(ah: nat, al: nat, bh: nat, bl: nat, m: nat, n: nat)
    requires al < Pow2(m) && bl < Pow2(m)
    ensures OrBits(ah * Pow2(m) + al, bh * Pow2(m) + bl, m + n)
      == OrBits(ah, bh, n) * Pow2(m) + OrBits(al, bl, m)
  {
    if m > 0 {
      var half := Pow2(m - 1);
      HalveJoined(ah, al, half);
      HalveJoined(bh, bl, half);
      OrBitsJoin(ah, al / 2, bh, bl / 2, m - 1, n);
      var high, low := OrBits(ah, bh, n), OrBits(al / 2, bl / 2, m - 1);
      assert Pow2(m) == 2 * half;
      MulDouble(high, half);
    } else {
      assert Pow2(m) == 1;
    }
  }

  /** `x | y` on two longs, taken half by half; it is the bitwise or of all 64 bits. */
  function Or64(a: Word, b: Word): (r: Word)
    ensures r == OrBits(a, b, 64)
    ensures High(r) == Or32(High(a), High(b)) && Low(r) == Or32(Low(a), Low(b))
  {
    Pow2Of32();
    OrBitsJoin(High(a), Low(a), High(b), Low(b), 32, 32);
    Join(Or32(High(a), High(b)), Or32(Low(a), Low(b)))
  }

  /** The facts about `|` the ticket words rely on: 0 is its unit and -1 absorbs. */
  lemma Or32Facts(x: Lane)
    ensures Or32(x, 0) == x && Or32(0, x) == x
    ensures Or32(AllOnes, x) == AllOnes && Or32(x, AllOnes) == AllOnes
  {
    Pow2Of32();
    OrBitsZero(x, 32);
    OrBitsOnes(x, 32);
  }

  // ---------------------------------------------------------------------------------------
  // IsHeld (SpinLock.cs line 74)

  /** The test IsHeld applies to the long: `(w >> 32) != (w & 0xFFFFFFFF)`, the sign-extended
      high half against the zero-extended low half.  The two differ when the halves differ,
      and also when they are equal but have the top bit set. */
  function HeldTest(w: Word): (r: bool)
    ensures r <==> High(w) != Low(w) || Negative(High(w))
  {
    ShiftRight32(w) != Low(w)
  }

  /** Whatever the byte order, the lock reads as held exactly when the counters differ or
      are equal and negative. */
  lemma HeldTestLanes(value: Lane, users: Lane, littleEndian: bool)
    ensures HeldTest(Pack(value, users, littleEndian)) <==> value != users || Negative(value)
  {
  }

  /** After 2^31 acquire/release pairs both counters are 0x8000_0000, and the free lock reads
      as held. */
  lemma FreeLockReadsHeld(littleEndian: bool)
    ensures HeldTest(Pack(SignBit, SignBit, littleEndian))
  {
  }

  /** IsHeld with the high half shifted in as zeros (an unsigned shift): the lock reads as
      held exactly when the counters differ. */
  function IntendedHeldTest(w: Word): (r: bool)
    ensures forall littleEndian: bool ::
      r <==> ValueLane(w, littleEndian) != UsersLane(w, littleEndian)
  {
    High(w) != Low(w)
  }

  // ---------------------------------------------------------------------------------------
  // The words of TryEnter's compare-and-swap (SpinLock.cs lines 177-180)

  /** `(u << 32) | u` with `long u = ticket.Users`: the long TryEnter expects a free lock to
      hold.  For a negative `Users` the sign extension fills the high half with ones. */
  function FreeWord(users: Lane): (w: Word)
    ensures w == Join(if Negative(users) then AllOnes else users, users)
  {
    var u := SignExtend(users);
    Or32Facts(users);
    var w := Or64(ShiftLeft32(u), u);
    JoinHalves(w);
    w
  }

  /** The `Users` values that survive `long u = Users` with the high half still equal to the
      low one: the ints that are not negative, and -1, whose sign extension is all ones. */
  predicate Matchable(users: Lane) {
    !Negative(users) || users == AllOnes
  }

  /** The counters for which TryEnter's compare-and-swap finds `(u << 32) | u`.  On a
      little-endian platform they must be equal and `Users` matchable, so once 2^31 tickets
      have been issued TryEnter cannot take the lock until the issue counter comes round to -1.
      On a big-endian platform the sign extension lands in the `Value` lane: a negative `Users`
      matches a `Value` of -1 and nothing else. */
  predicate CasMatches(value: Lane, users: Lane, littleEndian: bool) {
    if littleEndian then value == users && Matchable(users)
    else value == if Negative(users) then AllOnes else users
  }

  lemma FreeWordMatches(value: Lane, users: Lane, littleEndian: bool)
    ensures Pack(value, users, littleEndian) == FreeWord(users) <==> CasMatches(value, users, littleEndian)
  {
  }

  /** `u + 1` for the sign extension `u` of an int. */
  lemma SignExtendAdd1(x: Lane)
    ensures Add1(SignExtend(x)) ==
      if !Negative(x) then Join(0, x + 1)
      else if x == AllOnes then Join(0, 0)
      else Join(AllOnes, x + 1)
  {
  }

  /** `|` of two joined words joins the `|` of their halves. */
  lemma OrJoin(h1: Lane, l1: Lane, h2: Lane, l2: Lane)
    ensures Or64(Join(h1, l1), Join(h2, l2)) == Join(Or32(h1, h2), Or32(l1, l2))
  {
  }

  /** The long TryEnter stores on success: `(u << 32) | (u + 1)` on a little-endian platform,
      `((u + 1) << 32) | u` otherwise.  Wherever the compare-and-swap can match, both keep `u`
      in the `Users` (issue) lane and put `u + 1` in the `Value` (serve) lane; except that on a
      big-endian platform with a negative `Users` the word stored is the word found. */
  function TakenWord(users: Lane, littleEndian: bool): (w: Word)
    ensures (if littleEndian then Matchable(users) else !Negative(users)) ==>
      ValueLane(w, littleEndian) == Inc(users) && UsersLane(w, littleEndian) == users
    ensures !littleEndian && Negative(users) ==> w == FreeWord(users)
  {
    var u := SignExtend(users);
    var v := Add1(u);
    SignExtendAdd1(users);
    JoinHalves(u);
    JoinHalves(v);
    Or32Facts(users);
    Or32Facts(Low(v));
    Or32Facts(0);
    OrJoin(users, 0, High(v), Low(v));
    OrJoin(Low(v), 0, High(u), users);
    if littleEndian then Or64(ShiftLeft32(u), v) else Or64(ShiftLeft32(v), u)
  }

  /** Wherever the compare-and-swap can match and store a new word, the serve lane runs one
      ahead of the issue lane after a successful TryEnter; the one increment Exit makes leaves
      them two apart, and the lock still reads as held. */
  lemma TakenThenReleasedReadsHeld(users: Lane, littleEndian: bool)
    requires if littleEndian then Matchable(users) else !Negative(users)
    ensures var w := TakenWord(users, littleEndian);
      && Inc(ValueLane(w, littleEndian)) == Inc(Inc(users))
      && UsersLane(w, littleEndian) == users
      && HeldTest(Pack(Inc(ValueLane(w, littleEndian)), UsersLane(w, littleEndian), littleEndian))
  {
  }

  /** The expected long with `Users` zero-extended: `((long)(uint)Users << 32) | (uint)Users`. */
  function IntendedFreeWord(users: Lane): (w: Word)
    ensures forall value: Lane, littleEndian: bool ::
      Pack(value, users, littleEndian) == w <==> value == users
  {
    var u := Join(0, users);
    Or32Facts(users);
    var w := Or64(ShiftLeft32(u), u);
    assert w == Join(users, users);
    w
  }

  /** The stored long with the two branches exchanged: the holder's ticket `u` is the one
      served and `u + 1` the next to issue. */
  function IntendedTakenWord(users: Lane, littleEndian: bool): (w: Word)
    ensures ValueLane(w, littleEndian) == users
    ensures UsersLane(w, littleEndian) == Inc(users)
  {
    if littleEndian then Join(Inc(users), users) else Join(users, Inc(users))
  }

  /** With the corrected words, the lock taken by TryEnter stays exclusive: it reads as held
      both before and after the next Enter draws its ticket, and TryEnter's expected word
      matches neither state. */
  lemma IntendedTakenThenDrawnReadsHeld(users: Lane, littleEndian: bool)
    ensures var w := IntendedTakenWord(users, littleEndian);
      var drawn := Pack(ValueLane(w, littleEndian), Inc(UsersLane(w, littleEndian)), littleEndian);
      && IntendedHeldTest(w) && IntendedFreeWord(UsersLane(w, littleEndian)) != w
      && IntendedHeldTest(drawn) && IntendedFreeWord(Inc(UsersLane(w, littleEndian))) != drawn
  {
    var w := IntendedTakenWord(users, littleEndian);
    var next, after := Inc(users), Inc(Inc(users));
    assert users != next && users != after;
    PackLanes(w, littleEndian);
    assert w == Pack(users, next, littleEndian);
    var drawn := Pack(users, after, littleEndian);
    assert ValueLane(drawn, littleEndian) != UsersLane(drawn, littleEndian);
    assert IntendedFreeWord(next) != w;
    assert IntendedFreeWord(after) != drawn;
  }

  /** With the corrected words, a TryEnter on a free lock followed by the one increment Exit
      makes leaves a lock that reads as free: the counters meet again. */
  lemma IntendedTakenThenReleasedIsFree(users: Lane, littleEndian: bool)
    ensures var w := IntendedTakenWord(users, littleEndian);
      var released := Pack(Inc(ValueLane(w, littleEndian)), UsersLane(w, littleEndian), littleEndian);
      !IntendedHeldTest(released) && IntendedFreeWord(Inc(users)) == released
  {
  }
}
